=== FILE: README.md ===
# quic-speed measurement core, modelled in Dafny

quic-speed is a bandwidth-measurement server: clients upload and download
synthetic payloads over HTTP. This project models three pure-logic pieces of it:

- **The measurement request handler** (`handle_request` in `src/server.rs`), as a
  pure function `Server.HandleRequest` from a normalised request (method, path,
  body as a sequence of frame reads) and the connection's `HttpVersion` to a
  normalised response (status, header map, body). It covers the routing table,
  the upload byte counter (`UploadSink`), the download length read from the path
  (`UsizeText`, Rust's `str::parse::<usize>` and `usize::to_string` on a 64-bit
  target) and the lazy zero-chunk download body (`DownloadStream`).
- **The resolver bridge's worker** (`resolve_host` in `src/dns.rs`): splitting the
  system resolver's output into IPv4 and IPv6 lists, refusing an empty lookup,
  passing lookup errors through, and reporting "interrupted" when the one-shot
  channel closes without a message (`Dns`). Also the thread-count rule of `new_auto`.
- **Certificate selection** (`parse_certs` / `parse_cert` in `src/certs.rs`) over
  the sequence of per-block results the PEM iterator yields (`Certs`).

Files: `base.dfy` (Option, Result, byte), `usize_text.dfy`, `download.dfy`,
`upload.dfy`, `server.dfy`, `server_properties.dfy`, `dns.dfy`, `certs.dfy`.

`handle_request` (src/server.rs:138-142) answers every non-GET request other
than POST `/upload` with 405, including a POST to an unknown path; only a GET to
an unknown path is a 404.

Inputs the code takes from its environment are parameters: the body's frame
reads (`seq<FrameRead>`), the resolver's output (`Result<seq<SocketAddr>, IoError>`),
whether the worker's message reached the one-shot channel before its sender
was dropped (`messageSent`), the host's available
parallelism (`Option<nat>`), and the PEM iterator's output (`seq<PemItem>`).

## Model

| member | source | states |
|---|---|---|
| Server.VersionText | src/server.rs:42-50 | Every version's header text starts with `HTTP/` (Http1 → `HTTP/1.1`, Http2 → `HTTP/2`, Http3 → `HTTP/3`). |
| Server.VersionTextInjective | src/server.rs:42-50 | Two versions have the same header text exactly when they are the same version. |
| Server.JsonResponse | src/server.rs:63-71 | A JSON response carries the given status and document and exactly two headers: `Content-Type: application/json` and `X-Http-Version`. |
| Server.HandleRequest | src/server.rs:73-145 | Every response carries `X-Http-Version` equal to the version's text; the index page is served exactly for GET `/`; 405 exactly when the request is neither a GET nor POST `/upload`, always with `{"error": "method not allowed"}`; 404 exactly for a GET to a path that is neither `/` nor under `/download/`, always with `{"error": "not found"}`; a zero stream exactly for an accepted download; 200 exactly for the index, an accepted download, or an upload without frame errors. |
| ServerProperties.IndexRoute | src/server.rs:75-80 | GET `/`, whatever its body, is a 200 with the index page and headers `Content-Type: text/html` and `X-Http-Version` only. |
| ServerProperties.DownloadAccepted | src/server.rs:104-131 | A GET (whatever its body) whose download suffix reads as N ≤ 1 GiB is a 200 whose `Content-Length` is the decimal text of N (plain digits, no sign, no leading zero) and reads back as N, with `Cache-Control: no-store` and `application/octet-stream`, whose chunks join to exactly N zero bytes, are each non-empty and at most 65536 bytes, all full but the last, and number ceil(N / 65536). |
| ServerProperties.DownloadTooLarge | src/server.rs:109-113 | A GET (whatever its body) whose download suffix reads as N > 1 GiB is a 400 `{"error": "too large"}` with no stream and no `Content-Length`. |
| ServerProperties.DownloadDefaultsToZero | src/server.rs:107-108 | A GET (whatever its body) whose download suffix is not a `usize` (empty, stray character, or past 2^64 - 1) is a 200 with `Content-Length: 0` and no chunks, not an error. |
| ServerProperties.CapBoundaryAccepted | src/server.rs:109-126 | GET `/download/1073741824` (exactly 1 GiB) is accepted with 200 and that length announced. |
| ServerProperties.CapBoundaryRefused | src/server.rs:109-113 | GET `/download/1073741825` is refused with 400 `too large`. |
| ServerProperties.UploadCounts | src/server.rs:81-102 | POST `/upload` without read errors is a 200 `{"uploaded_bytes": B}` with B the sum of the data-frame lengths. |
| ServerProperties.UploadFrameError | src/server.rs:91-96 | POST `/upload` with any read error is a 400 `{"error": "frame error"}`, never a partial count. |
| ServerProperties.VersionOnlyTagged | src/server.rs:73-145 | The responses for two versions differ only in the `X-Http-Version` header. |
| ServerProperties.NonNumericScenario | src/server.rs:107-108 | GET `/download/abc` is answered with `Content-Length: 0`. |
| ServerProperties.RoutingScenarios | src/server.rs:74-142 | GET `/download` and GET `/upload` are 404; POST `/` and POST `/download/5` are 405. |
| ServerProperties.UploadScenario | src/server.rs:81-102 | An upload of a 40-byte frame, a trailers frame and a 2-byte frame reports 42 bytes. |
| UsizeText.ParseUsizeSpec | src/server.rs:107-108 | The suffix parse succeeds exactly for a non-empty digit run, after an optional single `+`, whose value is at most 2^64 - 1, and yields that value. |
| UsizeText.AccumulateSpec | src/server.rs:108 | The checked digit-by-digit loop succeeds exactly when all characters are digits and the unbounded value fits in a `usize`, and then returns that value. |
| UsizeText.AccumulateAppend | src/server.rs:108 | The digit loop over two texts in a row equals the loop over the second text started from the first text's value. |
| UsizeText.ParseUsizeRejects | src/server.rs:108 | The empty suffix, a suffix with a non-digit (other than a leading `+`), and an all-digit suffix past 2^64 - 1 all fail to parse. |
| UsizeText.ParseToDecimal | src/server.rs:126 | The decimal text written into `Content-Length` parses back to the same length (round trip). |
| UsizeText.ToDecimal | src/server.rs:126 | The `Content-Length` text is a non-empty digit string whose value is the length, with no leading zero, and exactly `0` for the length 0. |
| DownloadStream.Step | src/server.rs:115-122 | One generator call yields nothing exactly when nothing remains; otherwise a non-empty all-zero chunk of at most 65536 bytes whose length plus the new remaining count is the old count, a full chunk whenever anything is left after it. |
| DownloadStream.Chunks | src/server.rs:115-123 | The chunks taken up to the first empty step join to exactly N zero bytes, each is non-empty and at most 65536 bytes, and all but the last are full. |
| DownloadStream.ChunkCount | src/server.rs:116-123 | A download of N bytes has ceil(N / 65536) chunks, none for N = 0. |
| DownloadStream.Drain | src/server.rs:114-124 | Polling the generator until its first empty step yields the whole stream, N zero bytes in all, after one call more than there are chunks. |
| UploadSink.Accumulate | src/server.rs:83-98 | The read loop gives a count exactly when no frame is a read error, and the count is the starting value plus the data-frame lengths. |
| UploadSink.DataBytesAppend | src/server.rs:84-90 | The byte total of two frame runs in sequence is the sum of their totals. |
| UploadSink.SplitFrameInvariant | src/server.rs:84-90 | Splitting a data frame into two whose lengths add up leaves the upload's outcome unchanged. |
| UploadSink.ReadBody | src/server.rs:84-98 | The loop's outcome is the upload count; on success every frame was read; on error the last frame read is the first read error and nothing after it was polled. |
| Dns.New | src/dns.rs:32-35 | A resolver built for a positive thread count has exactly that many workers. |
| Dns.NewAuto | src/dns.rs:30-41 | The pool size is the host's parallelism when known, `DEFAULT_THREADS` = 8 otherwise, and always positive. |
| Dns.FamiliesAppend | src/dns.rs:59-69 | Splitting by family commutes with concatenation, so each family list keeps the resolver's order. |
| Dns.FamiliesCount | src/dns.rs:57-69 | The IPv4 and IPv6 lists together have as many entries as the resolver returned. |
| Dns.V4Membership | src/dns.rs:59-64 | An address is in the IPv4 list exactly when the resolver returned it as an IPv4 socket address. |
| Dns.V6Membership | src/dns.rs:59-67 | An address is in the IPv6 list exactly when the resolver returned it as an IPv6 socket address. |
| Dns.ResolveWorker | src/dns.rs:46-77 | A lookup error is sent unchanged; an empty lookup sends `AddrNotAvailable` "no addresses found"; otherwise the message is the IPv4 and IPv6 lists of the lookup in order. |
| Dns.Receive | src/dns.rs:79 | A closed channel with no message gives `Interrupted` "thread interrupted"; a message is passed through. |
| Dns.ResolveHost | src/dns.rs:43-80 | End to end: a sender dropped without a message gives `Interrupted`; a lookup error passes through; an empty lookup is `AddrNotAvailable`; a non-empty lookup is a success holding exactly its IPv4 and IPv6 entries in order; and any success holds at least one address. |
| Certs.ParseCerts | src/certs.rs:7-21 | The batch holds one entry per decoded block and only contents of decoded blocks. |
| Certs.ParseCertsAppend | src/certs.rs:10-19 | The batch of a concatenated input is the concatenation of the batches, so entries come in iterator order and failed blocks never end the batch. |
| Certs.ParseCertsSingle | src/certs.rs:12-18 | A decoded block contributes its contents; a failed one contributes nothing. |
| Certs.ParseCert | src/certs.rs:23-36 | Nothing exactly when no block decodes; otherwise the contents of a decoded block with only failed blocks before it. |
| Certs.FirstOfBatch | src/certs.rs:7-36 | `parse_cert` is `Some` of the first entry of `parse_certs` when that batch is non-empty, and nothing otherwise. |

## Left out

- The listener loop, task spawning, the HTTP/1 connection driver and runtime construction (`PlainHttpServer` in `src/server.rs`): concurrency and I/O plumbing.
- Socket construction and options (`src/tcp.rs`, `src/udp.rs`) and the constants of `src/inet.rs`: operating-system calls with nothing computed.
- Configuration loading (`src/config.rs`), the command-line server binary and the re-export modules: file I/O and library wrappers.
- The thread pool, its lock and the one-shot channel in `src/dns.rs`: concurrency; the model takes whether the worker's message was sent as a parameter.
- Dns.ResolveHost: a job the pool never runs leaves the caller waiting forever (the sender is never dropped); that non-termination is not modelled, only the two outcomes a caller can observe.
- Dns.New: `new(0)` panics inside `ThreadPool::new`; the model requires a positive count instead of modelling the panic.
- The system resolver (`to_socket_addrs`) and the PEM/base64 decoder: foreign calls; their outputs are inputs of the model.
- JSON byte serialisation and the index page's contents: bodies are abstract values (`JsonValue`, `IndexPage`).
- Logging of frame and PEM errors: it has no effect on results.
- UploadSink.Accumulate: the `usize` byte counter is unbounded here; wrap-around would need more than 2^64 uploaded bytes in one request.
- Dns.NewAuto: the `assert!(num > 0)` panic is not modelled because the parallelism is typed non-zero, so it cannot fire.
- UploadSink.ReadBody: a client that keeps sending frames keeps the read loop of `src/server.rs:84` waiting forever; the body is a finite sequence of reads, so a body that never ends is not modelled.

=== FILE: base.dfy ===
/** Small shared vocabulary: optional values, results and bytes. */
module Base {

  /** An octet, as carried in HTTP bodies and PEM contents. */
  newtype byte = x: int | 0 <= x < 256

  /** A value that may be absent (Rust's `Option`). */
  datatype Option<+T> = None | Some(value: T) {

    /** Rust's `unwrap_or`: the value held by `Some`, and `fallback` for `None`. */
    function UnwrapOr(fallback: T): T {
      if Some? then value else fallback
    }
  }

  /** Success or failure (Rust's `Result`). */
  datatype Result<+R, +E> = Success(value: R) | Failure(error: E)
}

=== FILE: certs.dfy ===
/**
 * Certificate selection over PEM input. The PEM decoder is a parameter: its
 * output is the sequence of per-block results it yields, in buffer order.
 */
module Certs {
  import opened Base

  /** One block from the PEM iterator: its decoded contents, or a parse error. */
  datatype PemItem = PemOk(contents: seq<byte>) | PemError(reason: string)

  /** How many blocks decoded. */
  function CountOk(items: seq<PemItem>): nat {
    if |items| == 0 then 0 else (if items[0].PemOk? then 1 else 0) + CountOk(items[1..])
  }

  /**
   * `parse_certs`: the contents of every decoded block, in order; a block that
   * fails is logged and skipped, never ending the batch.
   */
  function ParseCerts(items: seq<PemItem>): (ders: seq<seq<byte>>)
    ensures |ders| == CountOk(items)
    ensures forall d :: d in ders ==> PemOk(d) in items
  {
    if |items| == 0 then []
    else
      match items[0]
      case PemOk(contents) => [contents] + ParseCerts(items[1..])
      case PemError(_) => ParseCerts(items[1..])
  }

  /**
   * `parse_cert`: the contents of the first decoded block, skipping failed blocks
   * before it, or nothing when no block decodes.
   */
  function ParseCert(items: seq<PemItem>): (r: Option<seq<byte>>)
    ensures r.None? <==> forall i :: 0 <= i < |items| ==> items[i].PemError?
    ensures r.Some? ==> exists i :: 0 <= i < |items| && items[i] == PemOk(r.value)
                                    && forall j :: 0 <= j < i ==> items[j].PemError?
  {
    if |items| == 0 then None
    else
      match items[0]
      case PemOk(contents) => Some(contents)
      case PemError(_) =>
        var r := ParseCert(items[1..]);
        assert forall i :: 0 < i < |items| ==> items[i] == items[1..][i - 1];
        r
  }

  /** Batches taken one after the other: the kept contents concatenate, so their order is the buffer order. */
  lemma {:induction false} ParseCertsAppend(a: seq<PemItem>, b: seq<PemItem>)
    ensures ParseCerts(a + b) == ParseCerts(a) + ParseCerts(b)
    decreases |a|
  {
    if |a| == 0 {
      assert a + b == b;
    } else {
      assert (a + b)[0] == a[0];
      assert (a + b)[1..] == a[1..] + b;
      ParseCertsAppend(a[1..], b);
    }
  }

  /** A single block contributes its contents when it decodes and nothing when it does not. */
  lemma ParseCertsSingle(item: PemItem)
    ensures ParseCerts([item]) == if item.PemOk? then [item.contents] else []
  {
    assert [item][1..] == [];
  }

  /** `parse_cert` is the head of what `parse_certs` keeps for the same buffer, and nothing when that is empty. */
  lemma {:induction false} FirstOfBatch(items: seq<PemItem>)
    ensures ParseCert(items) == if |ParseCerts(items)| > 0 then Some(ParseCerts(items)[0]) else None
    decreases |items|
  {
    if |items| > 0 && items[0].PemError? {
      FirstOfBatch(items[1..]);
    }
  }
}

=== FILE: dns.dfy ===
/**
 * The resolver bridge: a blocking name lookup runs on a worker thread, whose
 * result is split into IPv4 and IPv6 address lists and sent back once over a
 * one-shot channel. The system resolver and the channel are parameters here.
 */
module Dns {
  import opened Base

  newtype u16 = x: int | 0 <= x < 0x1_0000
  newtype u32 = x: int | 0 <= x < 0x1_0000_0000
  newtype u128 = x: int | 0 <= x < 0x1_0000_0000_0000_0000_0000_0000_0000_0000

  datatype Ipv4Addr = Ipv4Addr(bits: u32)
  datatype Ipv6Addr = Ipv6Addr(bits: u128)

  /** A resolved socket address; the port and IPv6 flow/scope fields are dropped by the worker. */
  datatype SocketAddr =
    | V4(ip4: Ipv4Addr, port: u16)
    | V6(ip6: Ipv6Addr, port: u16, flowinfo: u32, scopeId: u32)

  datatype ErrorKind = AddrNotAvailable | Interrupted | OtherKind(name: string)

  datatype IoError = IoError(kind: ErrorKind, message: string)

  /** The addresses of one host, each family in the resolver's order. */
  datatype HostAddrs = HostAddrs(addrsV4: seq<Ipv4Addr>, addrsV6: seq<Ipv6Addr>)

  /** Worker threads used when the host's parallelism is unknown. */
  const DEFAULT_THREADS: nat := 8

  datatype DnsResolver = DnsResolver(threads: nat)

  const NO_ADDRESSES: IoError := IoError(AddrNotAvailable, "no addresses found")
  const THREAD_INTERRUPTED: IoError := IoError(Interrupted, "thread interrupted")

  /** A resolver over a pool of `threads` workers; the thread pool refuses a count of zero. */
  function New(threads: nat): (r: DnsResolver)
    requires threads > 0
    ensures r.threads == threads
  {
    DnsResolver(threads)
  }

  /**
   * A resolver sized to the host: the available parallelism when it is known
   * (it is never zero), DEFAULT_THREADS otherwise.
   */
  function NewAuto(parallelism: Option<nat>): (r: DnsResolver)
    requires parallelism.Some? ==> parallelism.value > 0
    ensures r.threads > 0
    ensures parallelism.Some? ==> r.threads == parallelism.value
    ensures parallelism.None? ==> r.threads == DEFAULT_THREADS
  {
    New(parallelism.UnwrapOr(DEFAULT_THREADS))
  }

  /** The IPv4 addresses among `addrs`, in order. */
  function V4Only(addrs: seq<SocketAddr>): seq<Ipv4Addr> {
    if |addrs| == 0 then []
    else
      var rest := V4Only(addrs[..|addrs| - 1]);
      match addrs[|addrs| - 1]
      case V4(ip, _) => rest + [ip]
      case V6(_, _, _, _) => rest
  }

  /** The IPv6 addresses among `addrs`, in order. */
  function V6Only(addrs: seq<SocketAddr>): seq<Ipv6Addr> {
    if |addrs| == 0 then []
    else
      var rest := V6Only(addrs[..|addrs| - 1]);
      match addrs[|addrs| - 1]
      case V4(_, _) => rest
      case V6(ip, _, _, _) => rest + [ip]
  }

  /** Each family's list of a concatenation is the concatenation of the lists: order is kept. */
  lemma {:induction false} FamiliesAppend(a: seq<SocketAddr>, b: seq<SocketAddr>)
    ensures V4Only(a + b) == V4Only(a) + V4Only(b)
    ensures V6Only(a + b) == V6Only(a) + V6Only(b)
    decreases |b|
  {
    if |b| == 0 {
      assert a + b == a;
    } else {
      var last := b[|b| - 1];
      assert (a + b)[..|a + b| - 1] == a + b[..|b| - 1];
      assert (a + b)[|a + b| - 1] == last;
      FamiliesAppend(a, b[..|b| - 1]);
    }
  }

  /** Every address lands in exactly one family list. */
  lemma {:induction false} FamiliesCount(addrs: seq<SocketAddr>)
    ensures |V4Only(addrs)| + |V6Only(addrs)| == |addrs|
    decreases |addrs|
  {
    if |addrs| > 0 {
      FamiliesCount(addrs[..|addrs| - 1]);
    }
  }

  /** Every IPv4 entry of the lookup shows up in the IPv4 list, and the list holds nothing else. */
  lemma {:induction false} V4Membership(addrs: seq<SocketAddr>, ip: Ipv4Addr)
    ensures ip in V4Only(addrs) <==> exists port: u16 :: V4(ip, port) in addrs
    decreases |addrs|
  {
    if |addrs| > 0 {
      var init := addrs[..|addrs| - 1];
      V4Membership(init, ip);
      assert addrs == init + [addrs[|addrs| - 1]];
      if exists port: u16 :: V4(ip, port) in addrs {
        var port: u16 :| V4(ip, port) in addrs;
        if V4(ip, port) !in init {
          assert addrs[|addrs| - 1] == V4(ip, port);
        }
      }
    }
  }

  /** Every IPv6 entry of the lookup shows up in the IPv6 list, and the list holds nothing else. */
  lemma {:induction false} V6Membership(addrs: seq<SocketAddr>, ip: Ipv6Addr)
    ensures ip in V6Only(addrs) <==> exists port: u16, flow: u32, scope: u32 :: V6(ip, port, flow, scope) in addrs
    decreases |addrs|
  {
    if |addrs| > 0 {
      var init := addrs[..|addrs| - 1];
      V6Membership(init, ip);
      assert addrs == init + [addrs[|addrs| - 1]];
      if exists port: u16, flow: u32, scope: u32 :: V6(ip, port, flow, scope) in addrs {
        var port: u16, flow: u32, scope: u32 :| V6(ip, port, flow, scope) in addrs;
        if V6(ip, port, flow, scope) !in init {
          assert addrs[|addrs| - 1] == V6(ip, port, flow, scope);
        }
      }
    }
  }

  /**
   * The worker body. A lookup error is sent back unchanged; otherwise the
   * addresses are walked once, counted and split by family, and an empty lookup
   * is an "address not available" error rather than an empty success.
   */
  method ResolveWorker(lookup: Result<seq<SocketAddr>, IoError>) returns (sent: Result<HostAddrs, IoError>)
    ensures lookup.Failure? ==> sent == Failure(lookup.error)
    ensures lookup.Success? && |lookup.value| == 0 ==> sent == Failure(NO_ADDRESSES)
    ensures lookup.Success? && |lookup.value| > 0 ==>
              sent == Success(HostAddrs(V4Only(lookup.value), V6Only(lookup.value)))
  {
    if lookup.Failure? {
      return Failure(lookup.error);
    }
    var addrs := lookup.value;
    var addrsV4: seq<Ipv4Addr> := [];
    var addrsV6: seq<Ipv6Addr> := [];
    var count: nat := 0;
    while count < |addrs|
      invariant count <= |addrs|
      invariant addrsV4 == V4Only(addrs[..count])
      invariant addrsV6 == V6Only(addrs[..count])
      decreases |addrs| - count
    {
      assert addrs[..count + 1][..count] == addrs[..count];
      match addrs[count] {
        case V4(ip, _) => addrsV4 := addrsV4 + [ip];
        case V6(ip, _, _, _) => addrsV6 := addrsV6 + [ip];
      }
      count := count + 1;
    }
    assert addrs[..count] == addrs;
    if count == 0 {
      return Failure(NO_ADDRESSES);
    }
    return Success(HostAddrs(addrsV4, addrsV6));
  }

  /**
   * What the caller of `resolve_host` gets: the worker's message when one was
   * sent, and an "interrupted" error when the channel closed without one.
   */
  function Receive(received: Option<Result<HostAddrs, IoError>>): (r: Result<HostAddrs, IoError>)
    ensures received.None? ==> r == Failure(THREAD_INTERRUPTED)
    ensures received.Some? ==> r == received.value
  {
    match received
    case None => Failure(THREAD_INTERRUPTED)
    case Some(outcome) => outcome
  }

  /**
   * `resolve_host` end to end, with the system lookup's outcome as `lookup` and,
   * as `messageSent`, whether the worker's message reached the one-shot channel
   * before its sender was dropped (a worker that panics before sending drops the
   * sender without a message). A success always holds at least one address, and
   * the two lists together account for every address.
   */
  method ResolveHost(lookup: Result<seq<SocketAddr>, IoError>, messageSent: bool) returns (r: Result<HostAddrs, IoError>)
    ensures !messageSent ==> r == Failure(THREAD_INTERRUPTED)
    ensures messageSent && lookup.Failure? ==> r == Failure(lookup.error)
    ensures messageSent && lookup.Success? && |lookup.value| == 0 ==> r == Failure(NO_ADDRESSES)
    ensures messageSent && lookup.Success? && |lookup.value| > 0 ==>
              r == Success(HostAddrs(V4Only(lookup.value), V6Only(lookup.value)))
    ensures r.Success? ==> messageSent && lookup.Success?
                           && r.value.addrsV4 == V4Only(lookup.value)
                           && r.value.addrsV6 == V6Only(lookup.value)
                           && |r.value.addrsV4| + |r.value.addrsV6| == |lookup.value| > 0
  {
    var received: Option<Result<HostAddrs, IoError>> := None;
    if messageSent {
      var sent := ResolveWorker(lookup);
      received := Some(sent);
    }
    r := Receive(received);
    if lookup.Success? {
      FamiliesCount(lookup.value);
    }
  }
}

=== FILE: download.dfy ===
/**
 * The download body of the measurement server: a lazily produced stream of
 * zero-filled chunks, each sliced from a static 64 KiB buffer of zeros.
 */
module DownloadStream {
  import opened Base

  /** Length of the static zero buffer, and so the largest chunk. */
  const CHUNK_SIZE: nat := 65536

  type Chunk = seq<byte>

  /** `n` zero bytes. */
  function Zeros(n: nat): (z: seq<byte>)
    ensures |z| == n
    ensures forall i :: 0 <= i < n ==> z[i] == 0
  {
    seq(n, _ => 0)
  }

  predicate AllZero(s: seq<byte>) {
    forall i :: 0 <= i < |s| ==> s[i] == 0
  }

  /** The bytes of a chunk sequence laid end to end, as the client receives them. */
  function Concat(chunks: seq<Chunk>): seq<byte> {
    if |chunks| == 0 then [] else chunks[0] + Concat(chunks[1..])
  }

  /** Every chunk is non-empty and at most CHUNK_SIZE long, and all but the last are full. */
  predicate WellSized(cs: seq<Chunk>) {
    && (forall i :: 0 <= i < |cs| ==> 0 < |cs[i]| <= CHUNK_SIZE)
    && (forall i :: 0 <= i < |cs| - 1 ==> |cs[i]| == CHUNK_SIZE)
  }

  /**
   * One call of the generator closure on the count still to send: it takes
   * `min(remaining, CHUNK_SIZE)` bytes, lowers the count by that much, and yields
   * the chunk, or nothing once the count has reached zero.
   */
  function Step(remaining: nat): (r: (Option<Chunk>, nat))
    ensures r.0.None? <==> remaining == 0
    ensures r.0.Some? ==> 0 < |r.0.value| <= CHUNK_SIZE && AllZero(r.0.value)
    ensures r.0.Some? ==> |r.0.value| + r.1 == remaining
    ensures r.0.Some? && r.1 > 0 ==> |r.0.value| == CHUNK_SIZE
  {
    var chunk := if remaining < CHUNK_SIZE then remaining else CHUNK_SIZE;
    var rest := remaining - chunk;
    if chunk > 0 then (Some(Zeros(chunk)), rest) else (None, rest)
  }

  /**
   * The stream the client reads: the generator is polled until its first empty
   * step, and every chunk before that is sent in order.
   */
  function Chunks(remaining: nat): (cs: seq<Chunk>)
    ensures Concat(cs) == Zeros(remaining)
    ensures WellSized(cs)
    decreases remaining
  {
    match Step(remaining)
    case (None, _) => []
    case (Some(c), rest) =>
      var tail := Chunks(rest);
      assert Concat([c] + tail) == c + Concat(tail) by {
        assert ([c] + tail)[1..] == tail;
      }
      assert c + Zeros(rest) == Zeros(remaining);
      [c] + tail
  }

  /** There are ceil(n / CHUNK_SIZE) chunks, so none at all for an empty download. */
  lemma {:induction false} ChunkCount(n: nat)
    ensures |Chunks(n)| == (n + CHUNK_SIZE - 1) / CHUNK_SIZE
    decreases n
  {
    if n > CHUNK_SIZE {
      ChunkCount(n - CHUNK_SIZE);
      assert (n + CHUNK_SIZE - 1) / CHUNK_SIZE == 1 + (n - CHUNK_SIZE + CHUNK_SIZE - 1) / CHUNK_SIZE;
    } else if n > 0 {
      assert Step(n).1 == 0;
    }
  }

  /** Concatenation distributes over appending one chunk. */
  lemma {:induction false} ConcatSnoc(chunks: seq<Chunk>, c: Chunk)
    ensures Concat(chunks + [c]) == Concat(chunks) + c
    decreases |chunks|
  {
    if |chunks| > 0 {
      assert (chunks + [c])[1..] == chunks[1..] + [c];
      ConcatSnoc(chunks[1..], c);
    }
  }

  /** A non-empty step is the head of the stream, and the stream goes on from the count it leaves. */
  lemma ChunksUnfold(remaining: nat)
    requires remaining > 0
    ensures Chunks(remaining) == [Step(remaining).0.value] + Chunks(Step(remaining).1)
  {
  }

  /**
   * Regrouping an append. Proved apart from `Drain`: asserted inline there, the
   * chunk-stream facts in scope make the same step run out of resource.
   */
  lemma AppendAssoc<T>(a: seq<T>, c: T, b: seq<T>)
    ensures a + ([c] + b) == (a + [c]) + b
  {
  }

  /**
   * The response body as the connection driver consumes it: the closure is
   * called step by step until it yields nothing. Returns the chunks sent and the
   * number of closure calls, the last of which yields nothing.
   */
  method Drain(n: nat) returns (sent: seq<Chunk>, calls: nat)
    ensures sent == Chunks(n)
    ensures Concat(sent) == Zeros(n)
    ensures calls == |sent| + 1
  {
    sent := [];
    calls := 0;
    var remaining: nat := n;
    var done := false;
    while !done
      invariant remaining <= n
      invariant sent + Chunks(remaining) == Chunks(n)
      invariant |Concat(sent)| + remaining == n
      invariant done ==> remaining == 0
      invariant calls == |sent| + (if done then 1 else 0)
      decreases remaining, !done
    {
      var step := Step(remaining);
      calls := calls + 1;
      if step.0.None? {
        done := true;
      } else {
        var c := step.0.value;
        ChunksUnfold(remaining);
        ConcatSnoc(sent, c);
        AppendAssoc(sent, c, Chunks(step.1));
        sent := sent + [c];
        remaining := step.1;
      }
    }
  }
}

=== FILE: server.dfy ===
/**
 * The protocol-agnostic measurement request handler: one pure function from a
 * normalised request and the connection's HTTP version to a normalised response.
 */
module Server {
  import opened Base
  import UsizeText
  import DownloadStream
  import UploadSink

  /** Largest accepted download, 1 GiB. */
  const MAX_DOWNLOAD: nat := 1073741824

  const DOWNLOAD_PREFIX: string := "/download/"

  const CONTENT_TYPE: string := "Content-Type"
  const CONTENT_LENGTH: string := "Content-Length"
  const CACHE_CONTROL: string := "Cache-Control"
  const X_HTTP_VERSION: string := "X-Http-Version"

  /** The protocol the connection driver speaks; it is only echoed back. */
  datatype HttpVersion = Http1 | Http2 | Http3

  /** The `Display` text of a version, sent in the `X-Http-Version` header. */
  function VersionText(v: HttpVersion): (s: string)
    ensures |s| >= 6 && s[..5] == "HTTP/"
  {
    match v
    case Http1 => "HTTP/1.1"
    case Http2 => "HTTP/2"
    case Http3 => "HTTP/3"
  }

  /** Distinct versions are told apart by their header text. */
  lemma VersionTextInjective(a: HttpVersion, b: HttpVersion)
    ensures VersionText(a) == VersionText(b) <==> a == b
  {
    if a != b {
      assert VersionText(a)[5] != VersionText(b)[5] || |VersionText(a)| != |VersionText(b)|;
    }
  }

  /**
   * Request methods. `Extension` holds a non-standard token only: the HTTP layer
   * parses the standard tokens (`GET`, `POST`, ...) into their own variants, so
   * `Extension("GET")` never reaches the handler.
   */
  datatype Method = Get | Post | Put | Delete | Head | Options | Connect | Patch | Trace | Extension(token: string)

  /** A request as the handler sees it: method, URI path and the body as successive frame reads. */
  datatype Request = Request(httpMethod: Method, path: string, body: seq<UploadSink.FrameRead>)

  /** JSON values, kept abstract of their byte serialisation. */
  datatype JsonValue = JNumber(n: nat) | JString(s: string) | JObject(members: seq<(string, JsonValue)>)

  /** The statuses the handler produces: 200, 400, 404 and 405. */
  datatype StatusCode = OK | BadRequest | NotFound | MethodNotAllowed

  /** A response body: the static index page, a JSON document, or a stream of chunks. */
  datatype Body = IndexPage | Json(value: JsonValue) | ZeroStream(chunks: seq<DownloadStream.Chunk>)

  datatype Response = Response(status: StatusCode, headers: map<string, string>, body: Body)

  function ErrorJson(message: string): JsonValue {
    JObject([("error", JString(message))])
  }

  function UploadedJson(bytes: nat): JsonValue {
    JObject([("uploaded_bytes", JNumber(bytes))])
  }

  predicate StartsWith(s: string, prefix: string) {
    |prefix| <= |s| && s[..|prefix|] == prefix
  }

  /** The tail of a download path after its prefix. */
  function DownloadSuffix(path: string): string
    requires StartsWith(path, DOWNLOAD_PREFIX)
  {
    path[|DOWNLOAD_PREFIX|..]
  }

  /** The requested download length: the suffix as a `usize`, or 0 when it is not one. */
  function DownloadLength(path: string): nat
    requires StartsWith(path, DOWNLOAD_PREFIX)
  {
    UsizeText.ParseUsize(DownloadSuffix(path)).UnwrapOr(0)
  }

  /** A JSON response: the status, exactly the JSON content type and version headers, and the document. */
  function JsonResponse(status: StatusCode, v: HttpVersion, value: JsonValue): (r: Response)
    ensures r.status == status && r.body == Json(value)
    ensures r.headers.Keys == {CONTENT_TYPE, X_HTTP_VERSION}
    ensures r.headers[CONTENT_TYPE] == "application/json"
    ensures r.headers[X_HTTP_VERSION] == VersionText(v)
  {
    Response(status, map[CONTENT_TYPE := "application/json", X_HTTP_VERSION := VersionText(v)], Json(value))
  }

  function IndexResponse(v: HttpVersion): Response {
    Response(OK, map[CONTENT_TYPE := "text/html", X_HTTP_VERSION := VersionText(v)], IndexPage)
  }

  /** POST /upload: the byte count on success, a 400 after a frame error. */
  function UploadResponse(frames: seq<UploadSink.FrameRead>, v: HttpVersion): Response {
    match UploadSink.CountUpload(frames)
    case Some(bytes) => JsonResponse(OK, v, UploadedJson(bytes))
    case None => JsonResponse(BadRequest, v, ErrorJson("frame error"))
  }

  /** GET /download/<N>: a 400 past the cap, otherwise N zero bytes with their length announced. */
  function DownloadResponse(path: string, v: HttpVersion): Response
    requires StartsWith(path, DOWNLOAD_PREFIX)
  {
    var len := DownloadLength(path);
    if len > MAX_DOWNLOAD then
      JsonResponse(BadRequest, v, ErrorJson("too large"))
    else
      Response(OK,
               map[CONTENT_TYPE := "application/octet-stream",
                   CONTENT_LENGTH := UsizeText.ToDecimal(len),
                   CACHE_CONTROL := "no-store",
                   X_HTTP_VERSION := VersionText(v)],
               ZeroStream(DownloadStream.Chunks(len)))
  }

  /** A request that reaches the download route with an acceptable length. */
  predicate IsAcceptedDownload(req: Request) {
    req.httpMethod == Get && StartsWith(req.path, DOWNLOAD_PREFIX) && DownloadLength(req.path) <= MAX_DOWNLOAD
  }

  /**
   * The handler. Routes on (method, path): GET `/` serves the index page, POST
   * `/upload` counts the body, any other GET is a download when the path has the
   * download prefix and is not found otherwise, and every other request is a
   * method the server does not allow.
   */
  function HandleRequest(req: Request, v: HttpVersion): (r: Response)
    ensures X_HTTP_VERSION in r.headers && r.headers[X_HTTP_VERSION] == VersionText(v)
    ensures r.body == IndexPage <==> req.httpMethod == Get && req.path == "/"
    ensures r.status == MethodNotAllowed <==> !(req.httpMethod == Get || (req.httpMethod == Post && req.path == "/upload"))
    ensures r.status == NotFound <==> req.httpMethod == Get && req.path != "/" && !StartsWith(req.path, DOWNLOAD_PREFIX)
    ensures r.status == NotFound ==> r.body == Json(ErrorJson("not found"))
    ensures r.status == MethodNotAllowed ==> r.body == Json(ErrorJson("method not allowed"))
    ensures r.body.ZeroStream? <==> IsAcceptedDownload(req)
    ensures r.status == OK <==> (req.httpMethod == Get && req.path == "/") || IsAcceptedDownload(req)
                                || (req.httpMethod == Post && req.path == "/upload" && UploadSink.NoReadError(req.body))
  {
    match req.httpMethod
    case Get =>
      if req.path == "/" then IndexResponse(v)
      else if StartsWith(req.path, DOWNLOAD_PREFIX) then DownloadResponse(req.path, v)
      else JsonResponse(NotFound, v, ErrorJson("not found"))
    case Post =>
      if req.path == "/upload" then UploadResponse(req.body, v)
      else JsonResponse(MethodNotAllowed, v, ErrorJson("method not allowed"))
    case _ =>
      JsonResponse(MethodNotAllowed, v, ErrorJson("method not allowed"))
  }
}

=== FILE: server_properties.dfy ===
/** Properties of the request handler, one route at a time. */
module ServerProperties {
  import opened Base
  import UsizeText
  import DownloadStream
  import UploadSink
  import opened Server

  /** GET `/` is the HTML index page with status 200. */
  lemma IndexRoute(body: seq<UploadSink.FrameRead>, v: HttpVersion)
    ensures var r := HandleRequest(Request(Get, "/", body), v);
      && r.status == OK && r.body == IndexPage
      && r.headers.Keys == {CONTENT_TYPE, X_HTTP_VERSION}
      && r.headers[CONTENT_TYPE] == "text/html"
  {
  }

  /**
   * An accepted download of N bytes: status 200, a `Content-Length` that reads back
   * as N, and a body of exactly N zero bytes in ceil(N / 65536) chunks of at most
   * 65536 bytes, all full but the last.
   */
  lemma DownloadAccepted(path: string, body: seq<UploadSink.FrameRead>, n: nat, v: HttpVersion)
    requires StartsWith(path, DOWNLOAD_PREFIX)
    requires UsizeText.ParseUsize(DownloadSuffix(path)) == Some(n)
    requires n <= MAX_DOWNLOAD
    ensures var r := HandleRequest(Request(Get, path, body), v);
      && r.status == OK
      && r.headers.Keys == {CONTENT_TYPE, CONTENT_LENGTH, CACHE_CONTROL, X_HTTP_VERSION}
      && r.headers[CONTENT_LENGTH] == UsizeText.ToDecimal(n)
      && UsizeText.ParseUsize(r.headers[CONTENT_LENGTH]) == Some(n)
      && r.headers[CACHE_CONTROL] == "no-store"
      && r.headers[CONTENT_TYPE] == "application/octet-stream"
      && r.body.ZeroStream?
      && DownloadStream.Concat(r.body.chunks) == DownloadStream.Zeros(n)
      && DownloadStream.WellSized(r.body.chunks)
      && |r.body.chunks| == (n + DownloadStream.CHUNK_SIZE - 1) / DownloadStream.CHUNK_SIZE
  {
    assert path != "/";
    UsizeText.ParseToDecimal(n);
    DownloadStream.ChunkCount(n);
  }

  /** A download above 1 GiB is refused with 400 `too large` and no stream. */
  lemma DownloadTooLarge(path: string, body: seq<UploadSink.FrameRead>, n: nat, v: HttpVersion)
    requires StartsWith(path, DOWNLOAD_PREFIX)
    requires UsizeText.ParseUsize(DownloadSuffix(path)) == Some(n)
    requires n > MAX_DOWNLOAD
    ensures var r := HandleRequest(Request(Get, path, body), v);
      && r.status == BadRequest
      && r.body == Json(ErrorJson("too large"))
      && CONTENT_LENGTH !in r.headers
  {
    assert path != "/";
  }

  /**
   * A suffix that is not a `usize` (empty, a stray character, or a value past
   * 2^64 - 1) is a download of zero bytes: status 200, `Content-Length: 0`, no chunks.
   */
  lemma DownloadDefaultsToZero(path: string, body: seq<UploadSink.FrameRead>, v: HttpVersion)
    requires StartsWith(path, DOWNLOAD_PREFIX)
    requires !UsizeText.IsUsizeText(DownloadSuffix(path))
    ensures var r := HandleRequest(Request(Get, path, body), v);
      && r.status == OK
      && r.headers[CONTENT_LENGTH] == "0"
      && r.body == ZeroStream([])
  {
    assert path != "/";
    UsizeText.ParseUsizeSpec(DownloadSuffix(path));
    assert DownloadStream.Chunks(0) == [];
  }

  /** POST /upload without read errors reports the data-byte total with 200. */
  lemma UploadCounts(frames: seq<UploadSink.FrameRead>, v: HttpVersion)
    requires UploadSink.NoReadError(frames)
    ensures var r := HandleRequest(Request(Post, "/upload", frames), v);
      && r.status == OK
      && r.body == Json(UploadedJson(UploadSink.DataBytes(frames)))
  {
  }

  /** POST /upload with any read error is a 400 `frame error`, never a partial count. */
  lemma UploadFrameError(frames: seq<UploadSink.FrameRead>, v: HttpVersion)
    requires !UploadSink.NoReadError(frames)
    ensures var r := HandleRequest(Request(Post, "/upload", frames), v);
      && r.status == BadRequest
      && r.body == Json(ErrorJson("frame error"))
  {
  }

  /** A response with its `X-Http-Version` header overwritten for version `w`. */
  function Retag(r: Response, w: HttpVersion): Response {
    r.(headers := r.headers[X_HTTP_VERSION := VersionText(w)])
  }

  lemma JsonRetag(status: StatusCode, value: JsonValue, v: HttpVersion, w: HttpVersion)
    ensures JsonResponse(status, w, value) == Retag(JsonResponse(status, v, value), w)
  {
    var m := JsonResponse(status, v, value).headers;
    assert m[X_HTTP_VERSION := VersionText(w)] == JsonResponse(status, w, value).headers;
  }

  lemma DownloadRetag(path: string, v: HttpVersion, w: HttpVersion)
    requires StartsWith(path, DOWNLOAD_PREFIX)
    ensures DownloadResponse(path, w) == Retag(DownloadResponse(path, v), w)
  {
    if DownloadLength(path) > MAX_DOWNLOAD {
      JsonRetag(BadRequest, ErrorJson("too large"), v, w);
    } else {
      var m := DownloadResponse(path, v).headers;
      assert m[X_HTTP_VERSION := VersionText(w)] == DownloadResponse(path, w).headers;
    }
  }

  lemma IndexRetag(v: HttpVersion, w: HttpVersion)
    ensures IndexResponse(w) == Retag(IndexResponse(v), w)
  {
    var m := IndexResponse(v).headers;
    assert m[X_HTTP_VERSION := VersionText(w)] == IndexResponse(w).headers;
  }

  lemma UploadRetag(frames: seq<UploadSink.FrameRead>, v: HttpVersion, w: HttpVersion)
    ensures UploadResponse(frames, w) == Retag(UploadResponse(frames, v), w)
  {
    match UploadSink.CountUpload(frames)
    case Some(bytes) => JsonRetag(OK, UploadedJson(bytes), v, w);
    case None => JsonRetag(BadRequest, ErrorJson("frame error"), v, w);
  }

  /**
   * The version changes nothing but the `X-Http-Version` header: the responses for
   * two versions agree once that header is overwritten.
   */
  lemma VersionOnlyTagged(req: Request, v: HttpVersion, w: HttpVersion)
    ensures HandleRequest(req, w) == Retag(HandleRequest(req, v), w)
  {
    if req.httpMethod == Get && req.path == "/" {
      IndexRetag(v, w);
    } else if req.httpMethod == Get && StartsWith(req.path, DOWNLOAD_PREFIX) {
      DownloadRetag(req.path, v, w);
    } else if req.httpMethod == Get {
      JsonRetag(NotFound, ErrorJson("not found"), v, w);
    } else if req.httpMethod == Post && req.path == "/upload" {
      UploadRetag(req.body, v, w);
    } else {
      JsonRetag(MethodNotAllowed, ErrorJson("method not allowed"), v, w);
    }
  }

  // The boundary lemmas below take the path as a parameter equal to a literal and
  // read its digits in two halves: this keeps the solver from evaluating the
  // literal (and the 1 GiB chunk stream it names) eagerly.

  /** The digits of 1073741824, read in two halves. */
  lemma CapTextDigits(s: string)
    requires s == "10737" + "41824"
    ensures UsizeText.ParseUsize(s) == Some(MAX_DOWNLOAD)
  {
    assert UsizeText.Accumulate(0, "10737") == Some(10737);
    assert UsizeText.Accumulate(10737, "41824") == Some(MAX_DOWNLOAD);
    UsizeText.AccumulateAppend(0, "10737", "41824", 10737);
  }

  /** The decimal text of 1 GiB reads as the cap itself. */
  lemma CapText(path: string)
    requires path == "/download/1073741824"
    ensures StartsWith(path, DOWNLOAD_PREFIX)
    ensures UsizeText.ParseUsize(DownloadSuffix(path)) == Some(MAX_DOWNLOAD)
  {
    var suffix := DownloadSuffix(path);
    assert suffix == "10737" + "41824";
    CapTextDigits(suffix);
  }

  /** Exactly 1 GiB is still accepted, with the whole length announced. */
  lemma CapBoundaryAccepted(path: string, v: HttpVersion)
    requires path == "/download/1073741824"
    ensures HandleRequest(Request(Get, path, []), v).status == OK
    ensures UsizeText.ParseUsize(HandleRequest(Request(Get, path, []), v).headers[CONTENT_LENGTH]) == Some(MAX_DOWNLOAD)
  {
    CapText(path);
    var n := UsizeText.ParseUsize(DownloadSuffix(path)).value;
    DownloadAccepted(path, [], n, v);
  }

  /** The digits of 1073741825, read in two halves. */
  lemma OverCapTextDigits(s: string)
    requires s == "10737" + "41825"
    ensures UsizeText.ParseUsize(s) == Some(MAX_DOWNLOAD + 1)
  {
    assert UsizeText.Accumulate(0, "10737") == Some(10737);
    assert UsizeText.Accumulate(10737, "41825") == Some(MAX_DOWNLOAD + 1);
    UsizeText.AccumulateAppend(0, "10737", "41825", 10737);
  }

  /** The decimal text of 1 GiB + 1 reads as one past the cap. */
  lemma OverCapText(path: string)
    requires path == "/download/1073741825"
    ensures StartsWith(path, DOWNLOAD_PREFIX)
    ensures UsizeText.ParseUsize(DownloadSuffix(path)) == Some(MAX_DOWNLOAD + 1)
  {
    var suffix := DownloadSuffix(path);
    assert suffix == "10737" + "41825";
    OverCapTextDigits(suffix);
  }

  /** One byte past 1 GiB is refused. */
  lemma CapBoundaryRefused(path: string, v: HttpVersion)
    requires path == "/download/1073741825"
    ensures HandleRequest(Request(Get, path, []), v).status == BadRequest
    ensures HandleRequest(Request(Get, path, []), v).body == Json(ErrorJson("too large"))
  {
    OverCapText(path);
    var n := UsizeText.ParseUsize(DownloadSuffix(path)).value;
    DownloadTooLarge(path, [], n, v);
  }

  /** Worked request: a suffix that is not a number is a zero-length download. */
  lemma NonNumericScenario(v: HttpVersion)
    ensures HandleRequest(Request(Get, "/download/abc", []), v).headers[CONTENT_LENGTH] == "0"
  {
  }

  /** Worked requests at the edges of the routing table. */
  lemma RoutingScenarios(v: HttpVersion)
    ensures HandleRequest(Request(Get, "/download", []), v).status == NotFound
    ensures HandleRequest(Request(Get, "/upload", []), v).status == NotFound
    ensures HandleRequest(Request(Post, "/", []), v).status == MethodNotAllowed
    ensures HandleRequest(Request(Post, "/download/5", []), v).status == MethodNotAllowed
  {
  }

  /** Worked request: a 42-byte upload in two data frames around a trailers frame. */
  lemma UploadScenario(v: HttpVersion)
    ensures HandleRequest(Request(Post, "/upload", [UploadSink.Data(40), UploadSink.Trailers, UploadSink.Data(2)]), v).body
            == Json(UploadedJson(42))
  {
    var frames := [UploadSink.Data(40), UploadSink.Trailers, UploadSink.Data(2)];
    assert frames[1..] == [UploadSink.Trailers, UploadSink.Data(2)];
    assert frames[1..][1..] == [UploadSink.Data(2)];
    assert UploadSink.DataBytes([UploadSink.Data(2)]) == 2;
    assert UploadSink.DataBytes(frames) == 42;
    UploadCounts(frames, v);
  }
}

=== FILE: upload.dfy ===
/**
 * The upload sink of the measurement server: the request body is read frame by
 * frame, data-frame lengths are added up and the bytes themselves are dropped.
 */
module UploadSink {
  import opened Base

  /**
   * One poll of the body: a data frame of `len` bytes, a frame that carries no
   * data (trailers), or a read error.
   */
  datatype FrameRead = Data(len: nat) | Trailers | ReadError

  /** Total data bytes, frame by frame (non-data frames and errors contribute nothing). */
  function DataBytes(frames: seq<FrameRead>): nat {
    if |frames| == 0 then 0
    else (if frames[0].Data? then frames[0].len else 0) + DataBytes(frames[1..])
  }

  predicate NoReadError(frames: seq<FrameRead>) {
    forall i :: 0 <= i < |frames| ==> frames[i] != ReadError
  }

  /**
   * The read loop with the running count `bytes`: a data frame adds its length,
   * any other frame adds nothing, and a read error ends the upload with no count.
   */
  function Accumulate(bytes: nat, frames: seq<FrameRead>): (r: Option<nat>)
    ensures r.Some? <==> NoReadError(frames)
    ensures r.Some? ==> r.value == bytes + DataBytes(frames)
    decreases |frames|
  {
    if |frames| == 0 then Some(bytes)
    else
      match frames[0]
      case Data(len) => Accumulate(bytes + len, frames[1..])
      case Trailers => Accumulate(bytes, frames[1..])
      case ReadError => None
  }

  /** The outcome of a whole upload: the byte count, or nothing after a read error. */
  function CountUpload(frames: seq<FrameRead>): Option<nat> {
    Accumulate(0, frames)
  }

  /** The data-byte total of two frame runs read one after the other is the sum of their totals. */
  lemma {:induction false} DataBytesAppend(a: seq<FrameRead>, b: seq<FrameRead>)
    ensures DataBytes(a + b) == DataBytes(a) + DataBytes(b)
    decreases |a|
  {
    if |a| > 0 {
      assert (a + b)[0] == a[0];
      assert (a + b)[1..] == a[1..] + b;
      DataBytesAppend(a[1..], b);
    } else {
      assert a + b == b;
    }
  }

  /** A concatenation of frame runs is error-free exactly when both runs are. */
  lemma NoReadErrorAppend(a: seq<FrameRead>, b: seq<FrameRead>)
    ensures NoReadError(a + b) <==> NoReadError(a) && NoReadError(b)
  {
    if NoReadError(a) && NoReadError(b) {
      forall i | 0 <= i < |a + b| ensures (a + b)[i] != ReadError {
        if i >= |a| { assert (a + b)[i] == b[i - |a|]; }
      }
    }
    if NoReadError(a + b) {
      forall i | 0 <= i < |a| ensures a[i] != ReadError {
        assert (a + b)[i] == a[i];
      }
      forall i | 0 <= i < |b| ensures b[i] != ReadError {
        assert (a + b)[|a| + i] == b[i];
      }
    }
  }

  /**
   * The count does not depend on how the payload is framed: splitting one data
   * frame into two whose lengths add up gives the same outcome.
   */
  lemma SplitFrameInvariant(before: seq<FrameRead>, after: seq<FrameRead>, m: nat, n: nat)
    ensures CountUpload(before + [Data(m + n)] + after) == CountUpload(before + [Data(m), Data(n)] + after)
  {
    var one: seq<FrameRead> := [Data(m + n)];
    var two: seq<FrameRead> := [Data(m), Data(n)];
    assert DataBytes(one) == m + n;
    assert two[1..] == [Data(n)];
    assert DataBytes([Data(n)]) == n;
    assert DataBytes(two) == m + n;
    DataBytesAppend(before + one, after);
    DataBytesAppend(before, one);
    DataBytesAppend(before + two, after);
    DataBytesAppend(before, two);
    NoReadErrorAppend(before + one, after);
    NoReadErrorAppend(before, one);
    NoReadErrorAppend(before + two, after);
    NoReadErrorAppend(before, two);
  }

  /**
   * The read loop as it runs: frames are polled in order until the body ends or
   * a read fails. Returns the outcome and how many frames were polled; after a
   * read error nothing further is polled.
   */
  method ReadBody(frames: seq<FrameRead>) returns (outcome: Option<nat>, polled: nat)
    ensures outcome == CountUpload(frames)
    ensures outcome.Some? ==> polled == |frames|
    ensures outcome.None? ==> (0 < polled <= |frames| && frames[polled - 1] == ReadError
                               && NoReadError(frames[..polled - 1]))
  {
    var bytes := 0;
    polled := 0;
    outcome := None;
    var failed := false;
    while polled < |frames| && !failed
      invariant polled <= |frames|
      invariant !failed ==> NoReadError(frames[..polled]) && bytes == DataBytes(frames[..polled])
      invariant failed ==> 0 < polled && frames[polled - 1] == ReadError && NoReadError(frames[..polled - 1])
      decreases |frames| - polled
    {
      var frame := frames[polled];
      DataBytesAppend(frames[..polled], [frame]);
      assert frames[..polled + 1] == frames[..polled] + [frame];
      polled := polled + 1;
      match frame
      case Data(len) => bytes := bytes + len;
      case Trailers =>
      case ReadError => failed := true;
    }
    if !failed {
      assert frames[..polled] == frames;
      outcome := Some(bytes);
    } else {
      assert !NoReadError(frames);
    }
  }
}

=== FILE: usize_text.dfy ===
/**
 * Decimal text for the platform's `usize`, as used by the download route: the
 * path suffix is read with `str::parse::<usize>` and the `Content-Length` header is
 * written with `usize::to_string`. The target is taken to be 64-bit.
 */
module UsizeText {
  import opened Base

  /** Largest value of a 64-bit `usize`. */
  const USIZE_MAX: nat := 0xFFFF_FFFF_FFFF_FFFF

  predicate IsDigit(c: char) {
    '0' <= c <= '9'
  }

  predicate AllDigits(s: string) {
    forall i :: 0 <= i < |s| ==> IsDigit(s[i])
  }

  function DigitValue(c: char): (d: nat)
    requires IsDigit(c)
    ensures d < 10
  {
    c as int - '0' as int
  }

  function DigitChar(d: nat): (c: char)
    requires d < 10
    ensures IsDigit(c) && DigitValue(c) == d
  {
    ('0' as int + d) as char
  }

  /** The value of a digit string read left to right onto `acc`, with no width limit. */
  function Horner(acc: nat, s: string): nat
    requires AllDigits(s)
    decreases |s|
  {
    if |s| == 0 then acc else Horner(acc * 10 + DigitValue(s[0]), s[1..])
  }

  /**
   * The digit loop of Rust's unsigned parser: each character must be a digit, and
   * each step multiplies by ten and adds the digit with an overflow check; a bad
   * digit or an overflow both fail.
   */
  function Accumulate(acc: nat, s: string): Option<nat>
    requires acc <= USIZE_MAX
    decreases |s|
  {
    if |s| == 0 then Some(acc)
    else if !IsDigit(s[0]) then None
    else
      var next := acc * 10 + DigitValue(s[0]);
      if next > USIZE_MAX then None else Accumulate(next, s[1..])
  }

  /**
   * `str::parse::<usize>`: the empty string fails, a single leading `+` is accepted
   * (but `+` or `-` alone fails), and the rest goes through the digit loop.
   */
  function ParseUsize(s: string): Option<nat> {
    if |s| == 0 then None
    else if (s[0] == '+' || s[0] == '-') && |s| == 1 then None
    else if s[0] == '+' then Accumulate(0, s[1..])
    else Accumulate(0, s)
  }

  /** The text after an optional leading `+`. */
  function Unsigned(s: string): string {
    if |s| > 0 && s[0] == '+' then s[1..] else s
  }

  /** Whether `s` is accepted as a `usize`: a non-empty run of digits, after an optional `+`, whose value fits. */
  predicate IsUsizeText(s: string) {
    var d := Unsigned(s);
    |d| > 0 && AllDigits(d) && Horner(0, d) <= USIZE_MAX
  }

  /** `usize::to_string`: shortest decimal form, most significant digit first. */
  function ToDecimal(n: nat): (s: string)
    ensures |s| > 0 && AllDigits(s)
    ensures Horner(0, s) == n
    ensures s[0] == '0' ==> s == "0"
  {
    if n < 10 then [DigitChar(n)]
    else
      var prefix := ToDecimal(n / 10);
      HornerSnoc(0, prefix, DigitChar(n % 10));
      prefix + [DigitChar(n % 10)]
  }

  /** Appending a digit multiplies the value so far by ten and adds the digit. */
  lemma {:induction false} HornerSnoc(acc: nat, s: string, c: char)
    requires AllDigits(s) && IsDigit(c)
    ensures AllDigits(s + [c])
    ensures Horner(acc, s + [c]) == Horner(acc, s) * 10 + DigitValue(c)
    decreases |s|
  {
    if |s| == 0 {
      assert s + [c] == [c];
    } else {
      assert (s + [c])[1..] == s[1..] + [c];
      HornerSnoc(acc * 10 + DigitValue(s[0]), s[1..], c);
    }
  }

  /** Reading more digits never lowers the value. */
  lemma {:induction false} HornerAtLeast(acc: nat, s: string)
    requires AllDigits(s)
    ensures Horner(acc, s) >= acc
    decreases |s|
  {
    if |s| > 0 {
      HornerAtLeast(acc * 10 + DigitValue(s[0]), s[1..]);
    }
  }

  /** The checked digit loop succeeds exactly when every character is a digit and the unbounded value fits. */
  lemma {:induction false} AccumulateSpec(acc: nat, s: string)
    requires acc <= USIZE_MAX
    ensures Accumulate(acc, s).Some? <==> AllDigits(s) && Horner(acc, s) <= USIZE_MAX
    ensures Accumulate(acc, s).Some? ==> Accumulate(acc, s).value == Horner(acc, s)
    decreases |s|
  {
    if |s| > 0 && IsDigit(s[0]) {
      var next := acc * 10 + DigitValue(s[0]);
      if next > USIZE_MAX {
        if AllDigits(s) {
          HornerAtLeast(next, s[1..]);
        }
      } else {
        AccumulateSpec(next, s[1..]);
        assert AllDigits(s) <==> AllDigits(s[1..]) by {
          if AllDigits(s[1..]) {
            forall i | 0 <= i < |s| ensures IsDigit(s[i]) {
              if i > 0 { assert s[i] == s[1..][i - 1]; }
            }
          }
        }
      }
    } else if |s| > 0 {
      assert !AllDigits(s);
    }
  }

  /** The digit loop over two texts in a row: the second text continues from where the first left off. */
  lemma {:induction false} AccumulateAppend(acc: nat, a: string, b: string, mid: nat)
    requires acc <= USIZE_MAX
    requires Accumulate(acc, a) == Some(mid)
    ensures mid <= USIZE_MAX
    ensures Accumulate(acc, a + b) == Accumulate(mid, b)
    decreases |a|
  {
    if |a| == 0 {
      assert a + b == b;
    } else {
      assert (a + b)[0] == a[0];
      assert (a + b)[1..] == a[1..] + b;
      AccumulateAppend(acc * 10 + DigitValue(a[0]), a[1..], b, mid);
    }
  }

  /** Declarative reading of `str::parse::<usize>`: it yields a value exactly for usize text, and that value is the digits' value. */
  lemma ParseUsizeSpec(s: string)
    ensures ParseUsize(s).Some? <==> IsUsizeText(s)
    ensures ParseUsize(s).Some? ==> ParseUsize(s).value == Horner(0, Unsigned(s))
  {
    AccumulateSpec(0, Unsigned(s));
  }

  /** Round trip: the decimal text of any `usize` parses back to the same value. */
  lemma ParseToDecimal(n: nat)
    requires n <= USIZE_MAX
    ensures ParseUsize(ToDecimal(n)) == Some(n)
  {
    var s := ToDecimal(n);
    assert Unsigned(s) == s;
    ParseUsizeSpec(s);
  }

  /** The three ways a suffix is not a `usize`: empty, a non-digit, or a value past the maximum. */
  lemma ParseUsizeRejects(s: string)
    ensures |s| == 0 ==> ParseUsize(s) == None
    ensures (exists i :: 0 <= i < |s| && !IsDigit(s[i]) && !(i == 0 && s[i] == '+')) ==> ParseUsize(s) == None
    ensures AllDigits(s) && |s| > 0 && Horner(0, s) > USIZE_MAX ==> ParseUsize(s) == None
  {
    ParseUsizeSpec(s);
    if exists i :: 0 <= i < |s| && !IsDigit(s[i]) && !(i == 0 && s[i] == '+') {
      var i :| 0 <= i < |s| && !IsDigit(s[i]) && !(i == 0 && s[i] == '+');
      if |s| > 0 && s[0] == '+' {
        assert Unsigned(s)[i - 1] == s[i];
      } else {
        assert Unsigned(s)[i] == s[i];
      }
    }
  }
}
